=== FILE: README.md ===
# Grid worlds and MCTS tree bookkeeping, in Dafny

This project models the discrete core of a small reinforcement-learning
repository:

- **`GridWorld`** (`grid_world.py`) and **`catVsMonsters`** (`catvsmonsters.py`):
  two stochastic 5x5 grid worlds with four actions `AU`/`AD`/`AL`/`AR`.
  - A bounded move function (`get_next_state`), the perpendicular rotations
    `right_of`/`left_of`, and the reward/terminal rule.
  - `step` turns one uniform draw `p` into stay, intended move, or one of two
    sideways slips. Here `p` is a parameter, so `step` is a pure function of
    (environment, action name, `p`).
  - `reset`, and the value-iteration helper `get_q_value_for_vi`.
- **`MCTS`** (`Montecarlotree.py`): the search tree's bookkeeping.
  - The tree is an arena, a sequence of node records. Node `i` is the i-th
    node created and node 0 is the root.
  - Modelled operations: node creation, the UCB descent and one-child
    expansion of `_select`, `_backpropagate`, `_ucb_select` and `_best_child`,
    plus the driver loop of `select_action`.

Files, one Dafny module each:

| file | module | contents |
|---|---|---|
| `results.dfy` | `Results` | `Option` and `Result`, the error paths of the Python code |
| `actions.dfy` | `Actions` | the four actions, their names, unit vectors, `right_of`/`left_of` |
| `grid.dfy` | `Grid` | cells, the 5x5 board, the `states` list, errors of the environments |
| `grid_world.dfy` | `GridWorld` | `GridWorld` |
| `cat_vs_monsters.dfy` | `CatVsMonsters` | `catVsMonsters` |
| `search_tree.dfy` | `SearchTree` | `Node`, the arena invariant, paths to the root, visit statistics |
| `mcts.dfy` | `Mcts` | `_select`, `_backpropagate`, `_ucb_select`, `_best_child`, `_simulate`, `select_action` |

How the Python is mapped:

- A Python exception is an error value. The `ValueError` that `step` (both
  environments) and `catVsMonsters.get_next_state` raise for an unknown action
  name is `Err(InvalidAction)`, a missing key of `V` is
  `Err(MissingKey(cell))`, and `max` of an empty child list is `None`.
- Probabilities and rewards are `real`, so thresholds such as `0.06 + 0.7`
  are exact.
- In `MCTS`, the parts the code delegates to numpy or the gym environment are
  parameters:
  - `score(parent, child)` is the UCB1 score;
  - `pick` is the draw of `np.random.choice`, and the action taken is
    `untried[pick % |untried|]`;
  - `step(state, action)` is the state an action leads to from a given state;
  - `actionsOf(state)` is the list of actions a new node starts with;
  - the rollout's reward is passed to the iteration.
- Python's `max(xs, key=f)` returns the first maximal element. `FirstMax`
  models that, so ties go to the earliest expanded child.

Points where the code's behaviour is easy to misread:

- `_backpropagate` adds the raw reward to `value` and adds one to `visits`
  on every node from the leaf to the root. It applies no discount and keeps a
  running sum in `value`.
- `_ucb_select` divides by `child.visits` and takes `log(node.visits)` with
  no special case for unvisited children. `SearchTree.UcbDefined` shows that
  in the trees the loop builds neither number is ever zero when
  `_ucb_select` runs.
- Terminal states are not kept from being expanded. `select_action` returns
  the state of the most visited child, not an action.
- The labels of the two slip bands of `step` do not always match
  `right_of`/`left_of`.
  - In `GridWorld`, the band labelled "right" turns `AR` into `AU`, which is
    `left_of(AR)`. The "left" band turns `AR` into `AD`.
  - In `catVsMonsters`, the band labelled "left" turns `AL` into `AU`, which
    is `right_of(AL)`.
  - Both bands have the same probability, so the outcome distribution is
    unaffected. `DeviationBands` proves that the two bands together yield
    exactly `{right_of(a), left_of(a)}`. `RightBandLabel` and `LeftBandLabel`
    pin down the swap.

## Model

| member | source | states |
|---|---|---|
| Actions.Parse | grid_world.py:56-57 | a name parses exactly when it is one of `AU`, `AD`, `AL`, `AR`, and parsing inverts naming |
| Actions.RightOf | grid_world.py:123-132 | `right_of` turns the action's unit vector a quarter turn clockwise, so the result is perpendicular to it |
| Actions.LeftOf | grid_world.py:133-142 | `left_of` turns the action's unit vector a quarter turn counter-clockwise |
| Actions.RotationsInverse | catvsmonsters.py:129-149 | `left_of(right_of(a)) == a` and `right_of(left_of(a)) == a` for every action |
| Actions.RightOfCycle | grid_world.py:123-132 | `right_of` twice is the reverse action, and four times is the identity |
| Actions.RotationsArePerpendiculars | catvsmonsters.py:129-149 | the two rotations differ, and an action is perpendicular to `a` exactly when it is `right_of(a)` or `left_of(a)` |
| Actions.PerpendicularIsSideways | grid_world.py:60-79 | a perpendicular action is neither the action itself nor its reverse |
| Grid.StatesAreBoard | grid_world.py:8 | a cell is in the row-major `states` list exactly when it is on the 5x5 board, at index `5*r + c` |
| Grid.Displace | catvsmonsters.py:40-42 | the displaced cell differs from the start cell by exactly the action's effect vector |
| GridWorld.IsValidState | grid_world.py:26-31 | a state is valid exactly when it is on the board and not an obstacle |
| GridWorld.NextState | grid_world.py:33-52 | a valid state moves to a valid state; the result is the input, or the input plus the unit vector, and it is the input exactly when that target is invalid |
| GridWorld.ActualAction | grid_world.py:59-79 | `p < 0.1` stays, `0.1 <= p < 0.9` takes the intended action, and any larger draw takes an action perpendicular to it |
| GridWorld.DeviationBands | grid_world.py:66-79 | the two slip bands together produce exactly `right_of(a)` and `left_of(a)` |
| GridWorld.RightBandLabel | grid_world.py:66-72 | the band labelled "right" yields `right_of(a)` exactly when `a` is not `AR`, and for `AR` yields `left_of(AR)` |
| GridWorld.Step | grid_world.py:54-96 | unknown names fail with `ValueError`; reward is 10 iff goal, -10 iff water, else 0; `done` iff goal; the stay band changes nothing; the intended band moves as `get_next_state` does; a slip moves along the action `ActualAction` picks for that band, one of the two rotations; validity is kept |
| GridWorld.Reset | grid_world.py:98-101 | the environment is back at `(0, 0)`, which is returned and is valid |
| GridWorld.StayQValue | grid_world.py:114-122 | the "stay" course fails exactly when `state` has no value entry |
| GridWorld.StayCourseMatchesStep | grid_world.py:114-122 | the "stay" course equals the reward plus discounted value of a stay-band `step` from `state`, which leaves the environment unchanged |
| CatVsMonsters.Move | catvsmonsters.py:39-49 | an open cell moves to an open cell; the result is the input, or the input plus the effect vector, and it is the input exactly when that target is blocked |
| CatVsMonsters.NextState | catvsmonsters.py:34-49 | fails with `ValueError` exactly for unknown names; otherwise the result is the move to the target cell when that cell is open, and the input when it is not |
| CatVsMonsters.GetReward | catvsmonsters.py:120-127 | 10 exactly at the goal, -8 exactly on a monster, -0.05 exactly elsewhere |
| CatVsMonsters.ActualAction | catvsmonsters.py:56-76 | `p < 0.06` stays, `0.06 <= p < 0.76` takes the intended action, and any larger draw takes an action perpendicular to it |
| CatVsMonsters.DeviationBands | catvsmonsters.py:63-76 | the two slip bands together produce exactly `right_of(a)` and `left_of(a)` |
| CatVsMonsters.LeftBandLabel | catvsmonsters.py:63-69 | the band labelled "left" yields `left_of(a)` exactly when `a` is not `AL`, and for `AL` yields `right_of(AL)` |
| CatVsMonsters.Step | catvsmonsters.py:51-93 | unknown names fail with `ValueError`; the reward is `_get_reward` of the new state; `done` iff goal; open cells stay open; the stay band changes nothing; the intended band moves as `get_next_state` does; a slip moves along the action `ActualAction` picks for that band, one of the two rotations |
| CatVsMonsters.Reset | catvsmonsters.py:95-98 | the environment is back at `(0, 0)`, which is returned and is open |
| CatVsMonsters.QValue | catvsmonsters.py:100-118 | an unknown course gives `None`; a moving course fails with `ValueError` exactly for unknown action names; "stay" fails exactly when `state` has no entry and otherwise values `state` itself |
| CatVsMonsters.IntendedCourseMatchesStep | catvsmonsters.py:102-106 | the "intended" course equals the reward plus discounted value of an intended-band `step` from `state` |
| CatVsMonsters.SlipCoursesMatchStep | catvsmonsters.py:107-114 | a slip-band `step` from `state` has the value of the "right" or of the "left" course |
| CatVsMonsters.StayCourseMatchesStep | catvsmonsters.py:115-118 | the "stay" course equals the reward plus discounted value of a stay-band `step` from `state` |
| SearchTree.NewNode | Montecarlotree.py:6-12 | a new node has the given state and parent, no children, no visits and value 0.0 |
| SearchTree.Singleton | Montecarlotree.py:30 | the fresh tree is a well-formed tree holding only the root |
| SearchTree.Path | Montecarlotree.py:68-71 | the nodes `_backpropagate` walks run from the leaf by parent links to the root, each met once |
| SearchTree.SingletonValid | Montecarlotree.py:30 | the fresh tree satisfies the visit-statistics invariant |
| SearchTree.UcbDefined | Montecarlotree.py:73-80 | in a valid tree where every non-root node was visited, a node with children has visits above zero, and so has each child |
| Mcts.FirstMax | Montecarlotree.py:82 | the position returned holds a maximal key, and every earlier position holds a smaller one |
| Mcts.UcbSelect | Montecarlotree.py:73-82 | the result is a child of the node with the highest score among its children, the earliest expanded among equals |
| Mcts.BestChild | Montecarlotree.py:88-90 | `None` exactly when there are no children; otherwise the earliest child with the most visits |
| Mcts.Descend | Montecarlotree.py:43-45 | the descent stops at a node with untried actions or no children, and every step above it was the UCB choice of a fully expanded node |
| Mcts.ReachedChildlessRoot | Montecarlotree.py:43-45 | when the root has no children the descent stays at the root |
| Mcts.FirstIndex | Montecarlotree.py:50 | the position of the first occurrence of the action in the list |
| Mcts.RemoveFirst | Montecarlotree.py:50 | the first occurrence of the action leaves the list and the other entries keep their order |
| Mcts.Expand | Montecarlotree.py:48-56 | with untried actions, exactly one action is removed and one fresh child with `parent == node` is appended and returned; otherwise nothing changes |
| Mcts.Select | Montecarlotree.py:41-56 | either the tree is unchanged and the reached node has no untried actions and no children, or one child was added under the reached node and it is returned |
| Mcts.GrowWellFormed | Montecarlotree.py:52-53 | appending a fresh child keeps the arena a tree |
| Mcts.GrowValid | Montecarlotree.py:52-53 | expansion keeps every node's children visited no more often than the node |
| Mcts.Backpropagate | Montecarlotree.py:66-71 | every node from the leaf to the root gains one visit and `reward`; every other node is unchanged |
| Mcts.BackpropagateValid | Montecarlotree.py:66-71 | backpropagation keeps every node's children visited no more often than the node |
| Mcts.Iterate | Montecarlotree.py:34-36 | one select/backpropagate cycle keeps the tree valid, adds exactly one root visit, leaves a root with anything to explore with a child, and leaves a root with nothing to explore childless |
| Mcts.Run | Montecarlotree.py:30-36 | after the loop, root visits equal the number of iterations run and the tree is valid; the root has a child if some iteration ran and it had actions, and none if it had no actions |
| Mcts.SelectAction | Montecarlotree.py:28-39 | there is no answer exactly when the root has no child (where `max` raises), in particular when no iteration ran or the root had no actions; otherwise the answer is the state of the earliest expanded among the most visited root children, and there is one when some iteration ran and the root had actions |
| Mcts.Trajectory | Montecarlotree.py:60-63 | the states a rollout passes through, each the transition of the one before |
| Mcts.Simulate | Montecarlotree.py:58-64 | the result is the reward of the first terminal state on the trajectory, or `None` if there is none |

## Left out

- `cliff_walking.py` is not part of this model. It is a rendering loop over a gymnasium environment, with no logic of its own.
- Randomness: `np.random.random()`, `np.random.choice` and `action_space.sample()` are parameters (`p`, `pick`, the rollout's actions).
- The UCB1 formula: `np.log`, `np.sqrt` and floating-point division are abstracted as the `score` parameter. `_ucb_select` is modelled as a choice of a child with the highest score.
- Floating point in general: thresholds and rewards are exact reals, so a draw that lands on a rounding boundary of `0.1 + 0.8` in binary floating point is not modelled.
- `time_remaining()` is undefined in the source. The driver loop runs once per element of a given sequence of draws.
- `Node.get_possible_actions` is not defined in the source. A new node's untried actions come from the `actionsOf` parameter.
- The gym environment behind `_get_next_state`, `_is_terminal` and `_get_reward` is replaced by the parameters `step`, `terminal` and `rewardOf`.
- Mcts.Expand: the source's `_get_next_state(state, action)` returns `self.env.step(action)` (Montecarlotree.py:92-94). It ignores `state` and advances the one shared environment, so a new child's state depends on where that environment happens to be. The model computes the child's state as `step(t[n].state, a)`, a pure function of the parent's state.
- Mcts.Simulate: for the same reason, every rollout state after the first depends in the source on the shared environment, which nothing restores after a rollout. The model's `Trajectory` applies the pure `step` to the previous rollout state.
- `GridWorld.StayQValue`: only the "stay" course of `GridWorld.get_q_value_for_vi` is modelled. The other courses call the stochastic, state-changing `step` and ignore the `state` argument (grid_world.py:105-113).
- `Mcts.Simulate`: the rollout's actions are a finite sequence, and `None` means it ran out before a terminal state. The source loops without bound.
- `Mcts.SelectAction`: the source's `max` over an empty child list raises; here that is `None`.
- GridWorld.NextState: takes an `Action`, not a name, so the `KeyError` that `movements[action]` raises for an unknown name (grid_world.py:46) is not modelled. Its only caller, `step`, validates the name first (grid_world.py:56-57, 83).
- The `V=None` default of `catVsMonsters.get_q_value_for_vi` is not modelled: `V` is always a map. Indexing `None` would raise.
- `right_of`/`left_of` return `None` for an unknown name. Here they are total on `Action`, and an unknown name is rejected by `CatVsMonsters.QValue` before any rotation.

=== FILE: actions.dfy ===
/**
 * The four moves shared by both grid worlds, their movement vectors and the
 * perpendicular rotations `right_of` / `left_of`. Rows grow downwards, so
 * "up" is the vector (-1, 0).
 */
module Actions {
  import opened Results

  datatype Action = AU | AD | AL | AR

  /** The action list of both environments, in the source's order. */
  const ActionNames: seq<string> := ["AU", "AD", "AL", "AR"]

  /** The string token the source uses for an action. */
  function Name(a: Action): string
  {
    match a
    case AU => "AU"
    case AD => "AD"
    case AL => "AL"
    case AR => "AR"
  }

  /** Membership test `action in self.actions`, recovering the action token. */
  function Parse(name: string): (r: Option<Action>)
    ensures r.Some? <==> name in ActionNames
    ensures r.Some? ==> Name(r.value) == name
  {
    if name == "AU" then Some(AU)
    else if name == "AD" then Some(AD)
    else if name == "AL" then Some(AL)
    else if name == "AR" then Some(AR)
    else None
  }

  /** Every action's name is accepted and parses back to the same action. */
  lemma ParseName(a: Action)
    ensures Name(a) in ActionNames
    ensures Parse(Name(a)) == Some(a)
  {
  }

  /** The (row, column) displacement of an action. */
  function Delta(a: Action): (int, int)
  {
    match a
    case AU => (-1, 0)
    case AD => (1, 0)
    case AL => (0, -1)
    case AR => (0, 1)
  }

  /** Two actions move along orthogonal axes (their vectors' dot product is zero). */
  predicate Perpendicular(a: Action, b: Action)
  {
    Delta(a).0 * Delta(b).0 + Delta(a).1 * Delta(b).1 == 0
  }

  /** The action pointing the opposite way. */
  function Reverse(a: Action): (r: Action)
    ensures Delta(r) == (-Delta(a).0, -Delta(a).1)
  {
    match a
    case AU => AD
    case AD => AU
    case AL => AR
    case AR => AL
  }

  /** A perpendicular action is neither the action itself nor its reverse. */
  lemma PerpendicularIsSideways(a: Action, b: Action)
    requires Perpendicular(a, b)
    ensures b != a && b != Reverse(a)
  {
  }

  /** `right_of`: a quarter turn clockwise, (dr, dc) becomes (dc, -dr). */
  function RightOf(a: Action): (r: Action)
    ensures Delta(r) == (Delta(a).1, -Delta(a).0)
    ensures Perpendicular(a, r)
  {
    match a
    case AU => AR
    case AD => AL
    case AL => AU
    case AR => AD
  }

  /** `left_of`: a quarter turn anticlockwise, (dr, dc) becomes (-dc, dr). */
  function LeftOf(a: Action): (r: Action)
    ensures Delta(r) == (-Delta(a).1, Delta(a).0)
    ensures Perpendicular(a, r)
  {
    match a
    case AU => AL
    case AD => AR
    case AL => AD
    case AR => AU
  }

  /** An action is determined by its movement vector. */
  lemma DeltaInjective(a: Action, b: Action)
    requires Delta(a) == Delta(b)
    ensures a == b
  {
  }

  /** `left_of` and `right_of` undo each other, derived from the vector rotations. */
  lemma {:induction false} RotationsInverse(a: Action)
    ensures LeftOf(RightOf(a)) == a
    ensures RightOf(LeftOf(a)) == a
  {
    DeltaInjective(LeftOf(RightOf(a)), a);
    DeltaInjective(RightOf(LeftOf(a)), a);
  }

  /** Four right turns bring every action back to itself; two give its reverse. */
  lemma {:induction false} RightOfCycle(a: Action)
    ensures RightOf(RightOf(a)) == Reverse(a)
    ensures RightOf(RightOf(RightOf(RightOf(a)))) == a
  {
    DeltaInjective(RightOf(RightOf(a)), Reverse(a));
    DeltaInjective(RightOf(RightOf(RightOf(RightOf(a)))), a);
  }

  /** The two rotations of an action are distinct and are exactly its two perpendicular actions. */
  lemma RotationsArePerpendiculars(a: Action, b: Action)
    ensures RightOf(a) != LeftOf(a)
    ensures Perpendicular(a, b) <==> b == RightOf(a) || b == LeftOf(a)
  {
    assert Delta(RightOf(a)) != Delta(LeftOf(a));
  }
}

=== FILE: cat_vs_monsters.dfy ===
/**
 * `catVsMonsters`: a 5x5 board with four furniture cells, two monsters (-8)
 * and food at the goal (4, 4) (+10); every other cell costs -0.05. A step
 * goes the intended way with probability 0.7, stays with probability 0.06
 * and slips sideways with probability 0.12 each way. The uniform draw `p`
 * is a parameter. `get_q_value_for_vi` is pure here: it uses only the
 * deterministic move and the reward helper, never the environment.
 */
module CatVsMonsters {
  import opened Results
  import opened Actions
  import opened Grid

  const Furniture: seq<Cell> := [(2, 1), (2, 2), (2, 3), (3, 2)]
  const Monsters: seq<Cell> := [(4, 1), (0, 3)]
  const Goal: Cell := (4, 4)

  const PIntended: real := 0.7
  const PRight: real := 0.12
  const PLeft: real := 0.12
  const PStay: real := 0.06

  /** The courses `get_q_value_for_vi` knows. */
  const Courses: seq<string> := ["intended", "right", "left", "stay"]

  /** The environment's only mutable state: `current_state`. */
  datatype Env = Env(current: Cell)

  /** What `step` returns, together with the environment after the step. */
  datatype StepResult = StepResult(env: Env, state: Cell, reward: real, done: bool)

  /** The environment as constructed. */
  const Initial: Env := Env(Start)

  /** A cell the cat may stand on: on the board and not furniture. */
  predicate Open(c: Cell)
  {
    InBounds(c) && c !in Furniture
  }

  /** The move of `get_next_state` once the action is known to be one of the four. */
  function Move(s: Cell, a: Action): (r: Cell)
    ensures Open(s) ==> Open(r)
    ensures r == s || (r == Displace(s, a) && Open(r))
    ensures r == s <==> !Open(Displace(s, a))
  {
    var target := Displace(s, a);
    if 0 <= target.0 < Rows && 0 <= target.1 < Cols && target !in Furniture then target else s
  }

  /** `get_next_state`: an unknown action name raises; otherwise move unless blocked. */
  function NextState(s: Cell, name: string): (r: Result<Cell, EnvError>)
    ensures r.Err? <==> name !in ActionNames
    ensures r.Err? ==> r.error == InvalidAction
    ensures r.Ok? && Open(s) ==> Open(r.value)
    ensures r.Ok? ==> r.value == s || r.value == Displace(s, Parse(name).value)
    ensures r.Ok? ==> (r.value == s <==> !Open(Displace(s, Parse(name).value)))
    ensures r.Ok? ==> r.value == Move(s, Parse(name).value)
  {
    match Parse(name)
    case None => Err(InvalidAction)
    case Some(a) => Ok(Move(s, a))
  }

  /** `_get_reward`: +10 at the goal, -8 on a monster, -0.05 anywhere else. */
  function GetReward(s: Cell): (r: real)
    ensures r > 0.0 <==> s == Goal
    ensures r == 10.0 <==> s == Goal
    ensures r == -8.0 <==> s in Monsters
    ensures r == -0.05 <==> s != Goal && s !in Monsters
  {
    if s == Goal then 10.0
    else if s in Monsters then -8.0
    else -0.05
  }

  /**
   * The actual move chosen by draw `p` for intended action `a`: `None` is
   * "stay", otherwise the intended action or a sideways slip.
   */
  function ActualAction(a: Action, p: real): (r: Option<Action>)
    ensures r.None? <==> p < PStay
    ensures r == Some(a) <==> PStay <= p < PIntended + PStay
    ensures p >= PIntended + PStay ==> r.Some? && Perpendicular(a, r.value)
  {
    if p < PStay then None
    else if p < PIntended + PStay then Some(a)
    else if p < PIntended + PStay + PLeft then
      Some(if a == AU then AL else if a == AD then AR else AU)
    else
      Some(if a == AU then AR else if a == AD then AL else AD)
  }

  /** The two slip bands together produce exactly the two rotations of the intended action. */
  lemma DeviationBands(a: Action, p: real, q: real)
    requires PIntended + PStay <= p < PIntended + PStay + PLeft <= q
    ensures {ActualAction(a, p).value, ActualAction(a, q).value} == {RightOf(a), LeftOf(a)}
  {
  }

  /**
   * The band labelled "left" yields `left_of(a)` for every action except
   * `AL`, where it yields `right_of(AL)`; the "right" band is swapped likewise.
   */
  lemma LeftBandLabel(a: Action, p: real)
    requires PIntended + PStay <= p < PIntended + PStay + PLeft
    ensures ActualAction(a, p) == Some(LeftOf(a)) <==> a != AL
    ensures a == AL ==> ActualAction(a, p) == Some(RightOf(a))
  {
  }

  /** `step`: validate the action, draw the actual move, update the state, classify the result. */
  function Step(env: Env, name: string, p: real): (r: Result<StepResult, EnvError>)
    ensures r.Err? <==> name !in ActionNames
    ensures r.Err? ==> r.error == InvalidAction
    ensures r.Ok? ==> r.value.state == r.value.env.current
    ensures r.Ok? && Open(env.current) ==> Open(r.value.state)
    ensures r.Ok? ==> r.value.reward == GetReward(r.value.state)
    ensures r.Ok? ==> (r.value.done <==> r.value.state == Goal)
    ensures r.Ok? && p < PStay ==> r.value.env == env
    ensures r.Ok? && PStay <= p < PIntended + PStay ==>
              r.value.state == Move(env.current, Parse(name).value)
    ensures r.Ok? && PIntended + PStay <= p ==>
              r.value.state == Move(env.current, RightOf(Parse(name).value)) ||
              r.value.state == Move(env.current, LeftOf(Parse(name).value))
    ensures r.Ok? && PIntended + PStay <= p ==>
              r.value.state == Move(env.current, ActualAction(Parse(name).value, p).value)
  {
    match Parse(name)
    case None => Err(InvalidAction)
    case Some(a) =>
      var actual := ActualAction(a, p);
      var next := if actual.Some? then Move(env.current, actual.value) else env.current;
      var reward := if next == Goal then 10.0 else if next in Monsters then -8.0 else -0.05;
      Ok(StepResult(Env(next), next, reward, next == Goal))
  }

  /** `reset`: back to the start cell, which is also returned. */
  function Reset(env: Env): (r: (Env, Cell))
    ensures r.0 == Initial
    ensures r.1 == r.0.current && Open(r.1)
  {
    (Env(Start), Start)
  }

  /** One Bellman term: reward of `next` plus its discounted value, or `KeyError`. */
  function Backup(next: Cell, gamma: real, V: map<Cell, real>): Result<Option<real>, EnvError>
  {
    if next in V then Ok(Some(GetReward(next) + gamma * V[next])) else Err(MissingKey(next))
  }

  /**
   * `get_q_value_for_vi`: the value of one outcome course of taking `name`
   * in `state`. An unknown course falls through and yields `None`; an
   * unknown action raises in every course that moves (`right_of` and
   * `left_of` return `None`, which `get_next_state` rejects).
   */
  function QValue(state: Cell, name: string, course: string, gamma: real, V: map<Cell, real>)
    : (r: Result<Option<real>, EnvError>)
    ensures course !in Courses <==> r == Ok(None)
    ensures course in Courses[..3] ==> (name !in ActionNames <==> r == Err(InvalidAction))
    ensures course == "stay" ==> (r.Err? <==> state !in V)
    ensures course == "stay" && state in V ==> r == Ok(Some(GetReward(state) + gamma * V[state]))
  {
    if course == "intended" then
      match NextState(state, name)
      case Err(e) => Err(e)
      case Ok(next) => Backup(next, gamma, V)
    else if course == "right" then
      match Parse(name)
      case None => Err(InvalidAction)
      case Some(a) => Backup(Move(state, RightOf(a)), gamma, V)
    else if course == "left" then
      match Parse(name)
      case None => Err(InvalidAction)
      case Some(a) => Backup(Move(state, LeftOf(a)), gamma, V)
    else if course == "stay" then
      Backup(state, gamma, V)
    else
      Ok(None)
  }

  /**
   * Course `course` of `get_q_value_for_vi` has the value of the step taken
   * from `state` with draw `p`: that step's reward plus the discounted value
   * of the cell it ends in.
   */
  predicate CourseIsStep(state: Cell, name: string, course: string, p: real, gamma: real, V: map<Cell, real>)
    requires Step(Env(state), name, p).Ok? && Step(Env(state), name, p).value.state in V
  {
    var q := QValue(state, name, course, gamma, V);
    var sr := Step(Env(state), name, p).value;
    q.Ok? && q.value.Some? && q.value.value == sr.reward + gamma * V[sr.state]
  }

  /** A draw in the stay band agrees with the "stay" course. */
  lemma StayCourseMatchesStep(state: Cell, name: string, p: real, gamma: real, V: map<Cell, real>)
    requires name in ActionNames && p < PStay && state in V
    ensures Step(Env(state), name, p).Ok? && Step(Env(state), name, p).value.state in V
    ensures CourseIsStep(state, name, "stay", p, gamma, V)
  {
    var sr := Step(Env(state), name, p).value;
    assert sr.state == state;
  }

  /** A draw in the intended band agrees with the "intended" course. */
  lemma IntendedCourseMatchesStep(state: Cell, name: string, p: real, gamma: real, V: map<Cell, real>)
    requires name in ActionNames && PStay <= p < PIntended + PStay
    requires Move(state, Parse(name).value) in V
    ensures Step(Env(state), name, p).Ok? && Step(Env(state), name, p).value.state in V
    ensures CourseIsStep(state, name, "intended", p, gamma, V)
  {
  }

  /** The "right" and "left" courses back up the moves of the two rotations of the named action. */
  lemma SlipCourse(state: Cell, a: Action, b: Action, gamma: real, V: map<Cell, real>)
    requires b == RightOf(a) || b == LeftOf(a)
    requires Move(state, b) in V
    ensures b == RightOf(a) ==> QValue(state, Name(a), "right", gamma, V) == Backup(Move(state, b), gamma, V)
    ensures b == LeftOf(a) ==> QValue(state, Name(a), "left", gamma, V) == Backup(Move(state, b), gamma, V)
  {
    assert Parse(Name(a)) == Some(a);
  }

  /** A draw in either slip band agrees with the "right" or the "left" course. */
  lemma SlipCoursesMatchStep(state: Cell, name: string, p: real, gamma: real, V: map<Cell, real>)
    requires name in ActionNames && PIntended + PStay <= p
    requires Move(state, RightOf(Parse(name).value)) in V && Move(state, LeftOf(Parse(name).value)) in V
    ensures Step(Env(state), name, p).Ok? && Step(Env(state), name, p).value.state in V
    ensures CourseIsStep(state, name, "right", p, gamma, V) || CourseIsStep(state, name, "left", p, gamma, V)
  {
    var a := Parse(name).value;
    var sr := Step(Env(state), name, p).value;
    if sr.state == Move(state, RightOf(a)) {
      SlipCourse(state, a, RightOf(a), gamma, V);
      assert CourseIsStep(state, name, "right", p, gamma, V);
    } else {
      SlipCourse(state, a, LeftOf(a), gamma, V);
      assert CourseIsStep(state, name, "left", p, gamma, V);
    }
  }
}

=== FILE: grid.dfy ===
/**
 * The 5x5 board both environments share: cells as (row, column) pairs, the
 * bounds test, the enumeration `self.states`, and the one-cell displacement
 * an action asks for.
 */
module Grid {
  import opened Actions

  type Cell = (int, int)

  const Rows: int := 5
  const Cols: int := 5

  /** The start cell `(0, 0)` both environments begin in and reset to. */
  const Start: Cell := (0, 0)

  /** The exceptions the environments raise. */
  datatype EnvError =
    | InvalidAction                // ValueError("Invalid action")
    | MissingKey(key: Cell)        // KeyError when a value table lacks a cell

  predicate InBounds(c: Cell)
  {
    0 <= c.0 < Rows && 0 <= c.1 < Cols
  }

  /** `[(r, c) for r in range(rows) for c in range(cols)]`, in row-major order. */
  function States(): seq<Cell>
  {
    seq(Rows * Cols, k => (k / Cols, k % Cols))
  }

  /** The enumerated states are exactly the in-bounds cells, each at its row-major position. */
  lemma StatesAreBoard(c: Cell)
    ensures c in States() <==> InBounds(c)
    ensures InBounds(c) ==> States()[c.0 * Cols + c.1] == c
  {
    if InBounds(c) {
      var k := c.0 * Cols + c.1;
      assert 0 <= k < Rows * Cols;
      assert k / Cols == c.0 && k % Cols == c.1;
      assert States()[k] == c;
    }
    if c in States() {
      var k :| 0 <= k < |States()| && States()[k] == c;
      assert c == (k / Cols, k % Cols);
    }
  }

  /** The cell one step from `c` in the direction of `a`, before any blocking test. */
  function Displace(c: Cell, a: Action): (d: Cell)
    ensures d != c
    ensures (d.0 - c.0, d.1 - c.1) == Delta(a)
  {
    (c.0 + Delta(a).0, c.1 + Delta(a).1)
  }
}

=== FILE: grid_world.dfy ===
/**
 * `GridWorld`: a 5x5 board with two obstacle cells, a water cell (-10) and a
 * goal cell (+10). A step moves in the intended direction with probability
 * 0.8, stays put with probability 0.1 and slips sideways with probability
 * 0.05 each way. The uniform draw `p` is a parameter, so a step is a pure
 * function of (environment, action name, p).
 */
module GridWorld {
  import opened Results
  import opened Actions
  import opened Grid

  const Obstacles: seq<Cell> := [(2, 2), (3, 2)]
  const Water: Cell := (4, 2)
  const Goal: Cell := (4, 4)

  const PIntended: real := 0.8
  const PRight: real := 0.05
  const PLeft: real := 0.05
  const PStay: real := 0.10

  /** The environment's only mutable state: `current_state`. */
  datatype Env = Env(current: Cell)

  /** What `step` returns, together with the environment after the step. */
  datatype StepResult = StepResult(env: Env, state: Cell, reward: real, done: bool)

  /** The environment as constructed. */
  const Initial: Env := Env(Start)

  /** `is_valid_state`: on the board and not an obstacle. */
  function IsValidState(s: Cell): (b: bool)
    ensures b <==> s in States() && s !in Obstacles
  {
    StatesAreBoard(s);
    0 <= s.0 < Rows && 0 <= s.1 < Cols && s !in Obstacles
  }

  /** `get_next_state`: move one cell unless the target is off the board or an obstacle. */
  function NextState(s: Cell, a: Action): (r: Cell)
    ensures IsValidState(s) ==> IsValidState(r)
    ensures r == s || (r == Displace(s, a) && IsValidState(r))
    ensures r == s <==> !IsValidState(Displace(s, a))
  {
    var target := Displace(s, a);
    if IsValidState(target) then target else s
  }

  /**
   * The actual move chosen by draw `p` for intended action `a`: `None` is
   * "stay", otherwise the intended action or a sideways slip.
   */
  function ActualAction(a: Action, p: real): (r: Option<Action>)
    ensures r.None? <==> p < PStay
    ensures r == Some(a) <==> PStay <= p < PStay + PIntended
    ensures p >= PStay + PIntended ==> r.Some? && Perpendicular(a, r.value)
  {
    if p < PStay then None
    else if p < PStay + PIntended then Some(a)
    else if p < PStay + PIntended + PRight then
      Some(match a
           case AU => AR
           case AD => AL
           case _ => AU)
    else
      Some(match a
           case AU => AL
           case AD => AR
           case _ => AD)
  }

  /** The two slip bands together produce exactly the two rotations of the intended action. */
  lemma DeviationBands(a: Action, p: real, q: real)
    requires PStay + PIntended <= p < PStay + PIntended + PRight <= q
    ensures {ActualAction(a, p).value, ActualAction(a, q).value} == {RightOf(a), LeftOf(a)}
  {
  }

  /**
   * The band labelled "right" yields `right_of(a)` for every action except
   * `AR`, where it yields `left_of(AR)`; the "left" band is swapped likewise.
   */
  lemma RightBandLabel(a: Action, p: real)
    requires PStay + PIntended <= p < PStay + PIntended + PRight
    ensures ActualAction(a, p) == Some(RightOf(a)) <==> a != AR
    ensures a == AR ==> ActualAction(a, p) == Some(LeftOf(a))
  {
  }

  /** `step`: validate the action, draw the actual move, update the state, classify the result. */
  function Step(env: Env, name: string, p: real): (r: Result<StepResult, EnvError>)
    ensures r.Err? <==> name !in ActionNames
    ensures r.Err? ==> r.error == InvalidAction
    ensures r.Ok? ==> r.value.state == r.value.env.current
    ensures r.Ok? && IsValidState(env.current) ==> IsValidState(r.value.state)
    ensures r.Ok? ==> (r.value.reward == 10.0 <==> r.value.state == Goal)
    ensures r.Ok? ==> (r.value.reward == -10.0 <==> r.value.state == Water)
    ensures r.Ok? ==> (r.value.reward == 0.0 <==> r.value.state != Goal && r.value.state != Water)
    ensures r.Ok? ==> (r.value.done <==> r.value.state == Goal)
    ensures r.Ok? && p < PStay ==> r.value.env == env
    ensures r.Ok? && PStay <= p < PStay + PIntended ==>
              r.value.state == NextState(env.current, Parse(name).value)
    ensures r.Ok? && PStay + PIntended <= p ==>
              r.value.state == NextState(env.current, RightOf(Parse(name).value)) ||
              r.value.state == NextState(env.current, LeftOf(Parse(name).value))
    ensures r.Ok? && PStay + PIntended <= p ==>
              r.value.state == NextState(env.current, ActualAction(Parse(name).value, p).value)
  {
    match Parse(name)
    case None => Err(InvalidAction)
    case Some(a) =>
      var actual := ActualAction(a, p);
      var next := if actual.Some? then NextState(env.current, actual.value) else env.current;
      var reward := if next == Goal then 10.0 else if next == Water then -10.0 else 0.0;
      Ok(StepResult(Env(next), next, reward, next == Goal))
  }

  /** `reset`: back to the start cell, which is also returned. */
  function Reset(env: Env): (r: (Env, Cell))
    ensures r.0 == Initial
    ensures r.1 == r.0.current && IsValidState(r.1)
  {
    (Env(Start), Start)
  }

  /**
   * The "stay" course of `get_q_value_for_vi`: reward of `state` itself plus
   * the discounted value of `state`. It reads no environment, so it cannot
   * change `current_state`. A missing table entry is the `KeyError`.
   */
  function StayQValue(state: Cell, gamma: real, V: map<Cell, real>): (r: Result<real, EnvError>)
    ensures r.Err? <==> state !in V
    ensures r.Err? ==> r.error == MissingKey(state)
  {
    if state !in V then Err(MissingKey(state))
    else
      var reward := if state == Goal then 10.0 else if state == Water then -10.0 else 0.0;
      Ok(reward + gamma * V[state])
  }

  /**
   * The "stay" course is the one-step backup of the stay band of `step`:
   * started from `state`, a draw below 0.1 leaves the environment as it was,
   * and its reward plus the discounted value of where it ends is the stay
   * course's value.
   */
  lemma StayCourseMatchesStep(state: Cell, name: string, p: real, gamma: real, V: map<Cell, real>)
    requires name in ActionNames && p < PStay && state in V
    ensures Step(Env(state), name, p).Ok?
    ensures var sr := Step(Env(state), name, p).value;
            sr.env == Env(state) && StayQValue(state, gamma, V) == Ok(sr.reward + gamma * V[sr.state])
  {
    var sr := Step(Env(state), name, p).value;
    assert sr.state == state;
    assert sr.reward == if state == Goal then 10.0 else if state == Water then -10.0 else 0.0;
  }
}

=== FILE: mcts.dfy ===
/**
 * `MCTS` of `Montecarlotree.py` over the arena of `SearchTree`. The parts
 * the source leaves to numpy or to the gym environment are parameters:
 * `score` is the UCB1 score of a child given its parent, `pick` is the
 * random draw that chooses an untried action, `step` is the environment's
 * transition and `actionsOf` the actions a new node starts with.
 */
module Mcts {
  import opened Results
  import opened SearchTree

  /** `max(xs, key=...)` over positions: the first position whose key is maximal. */
  function FirstMax(keys: seq<real>): (k: nat)
    requires |keys| > 0
    ensures k < |keys|
    ensures forall j :: 0 <= j < |keys| ==> keys[j] <= keys[k]
    ensures forall j :: 0 <= j < k ==> keys[j] < keys[k]
  {
    if |keys| == 1 then 0
    else
      var k := FirstMax(keys[..|keys| - 1]);
      if keys[|keys| - 1] > keys[k] then |keys| - 1 else k
  }

  /** The key of each child of node `i`, in the children's order. */
  function ChildKeys<S, A>(t: Tree<S, A>, i: nat, key: Node<S, A> -> real): (ks: seq<real>)
    requires WellFormed(t) && i < |t|
    ensures |ks| == |t[i].children|
    ensures forall k :: 0 <= k < |ks| ==> ks[k] == key(t[t[i].children[k]])
  {
    seq(|t[i].children|, k requires 0 <= k < |t[i].children| => key(t[t[i].children[k]]))
  }

  /**
   * `max(node.children, key=key)`: a child of `i` with the largest key, the
   * earliest expanded one among equals.
   */
  function MaxChild<S, A>(t: Tree<S, A>, i: nat, key: Node<S, A> -> real): (c: nat)
    requires WellFormed(t) && i < |t| && t[i].children != []
    ensures c in t[i].children && i < c < |t| && t[c].parent == Some(i)
    ensures forall k :: 0 <= k < |t[i].children| ==> key(t[t[i].children[k]]) <= key(t[c])
    ensures forall k :: 0 <= k < |t[i].children| && t[i].children[k] < c ==>
              key(t[t[i].children[k]]) < key(t[c])
  {
    var m := FirstMax(ChildKeys(t, i, key));
    t[i].children[m]
  }

  /** `_ucb_select`: the child of `i` with the highest score, the earliest among equals. */
  function UcbSelect<S, A>(t: Tree<S, A>, i: nat, score: (Node<S, A>, Node<S, A>) -> real): (c: nat)
    requires WellFormed(t) && i < |t| && t[i].children != []
    ensures c in t[i].children && t[c].parent == Some(i)
    ensures forall k :: 0 <= k < |t[i].children| ==> score(t[i], t[t[i].children[k]]) <= score(t[i], t[c])
    ensures forall k :: 0 <= k < |t[i].children| && t[i].children[k] < c ==>
              score(t[i], t[t[i].children[k]]) < score(t[i], t[c])
  {
    MaxChild(t, i, (n: Node<S, A>) => score(t[i], n))
  }

  /**
   * `_best_child`: the most visited child of `i`, the earliest among equals;
   * `None` where `max` of an empty list raises.
   */
  function BestChild<S, A>(t: Tree<S, A>, i: nat): (r: Option<nat>)
    requires WellFormed(t) && i < |t|
    ensures r.None? <==> t[i].children == []
    ensures r.Some? ==> r.value in t[i].children && t[r.value].parent == Some(i)
    ensures r.Some? ==> forall k :: 0 <= k < |t[i].children| ==>
              t[t[i].children[k]].visits <= t[r.value].visits
    ensures r.Some? ==> forall k :: 0 <= k < |t[i].children| && t[i].children[k] < r.value ==>
              t[t[i].children[k]].visits < t[r.value].visits
  {
    if t[i].children == [] then None
    else Some(MaxChild(t, i, (n: Node<S, A>) => n.visits as real))
  }

  /** The descent does not go on from `n`: actions remain untried or there is no child. */
  predicate Stops<S, A>(n: Node<S, A>)
  {
    n.untried != [] || n.children == []
  }

  /**
   * The descent from the root leads to `n`: each node above `n` on its path
   * was fully expanded, had children, and its UCB choice is the next node down.
   */
  predicate DescendsTo<S, A>(t: Tree<S, A>, n: nat, score: (Node<S, A>, Node<S, A>) -> real)
    requires WellFormed(t) && n < |t|
  {
    var p := Path(t, n);
    forall k :: 0 < k < |p| ==>
      t[p[k]].untried == [] && t[p[k]].children != [] && UcbSelect(t, p[k], score) == p[k - 1]
  }

  /** `n` is where the descent of `_select` ends. */
  predicate Reached<S, A>(t: Tree<S, A>, n: nat, score: (Node<S, A>, Node<S, A>) -> real)
    requires WellFormed(t) && n < |t|
  {
    Stops(t[n]) && DescendsTo(t, n, score)
  }

  /** The descent of `_select`: follow UCB choices while a node is fully expanded and has children. */
  method Descend<S, A>(t: Tree<S, A>, score: (Node<S, A>, Node<S, A>) -> real) returns (n: nat)
    requires WellFormed(t)
    ensures n < |t| && Reached(t, n, score)
  {
    n := 0;
    while t[n].untried == [] && t[n].children != []
      invariant n < |t| && DescendsTo(t, n, score)
      decreases |t| - n
    {
      var c := UcbSelect(t, n, score);
      DescendStep(t, n, score);
      n := c;
    }
  }

  /** One more UCB choice from a fully expanded node the descent reached. */
  lemma DescendStep<S, A>(t: Tree<S, A>, n: nat, score: (Node<S, A>, Node<S, A>) -> real)
    requires WellFormed(t) && n < |t| && DescendsTo(t, n, score)
    requires t[n].untried == [] && t[n].children != []
    ensures UcbSelect(t, n, score) > n && DescendsTo(t, UcbSelect(t, n, score), score)
  {
    var c := UcbSelect(t, n, score);
    var p := Path(t, c);
    assert p == [c] + Path(t, n);
    forall k | 0 < k < |p|
      ensures t[p[k]].untried == [] && t[p[k]].children != [] && UcbSelect(t, p[k], score) == p[k - 1]
    {
      if k > 1 {
        assert p[k] == Path(t, n)[k - 1] && p[k - 1] == Path(t, n)[k - 2];
      }
    }
  }

  /** Where the root has no children the descent stays at the root. */
  lemma ReachedChildlessRoot<S, A>(t: Tree<S, A>, n: nat, score: (Node<S, A>, Node<S, A>) -> real)
    requires WellFormed(t) && n < |t| && Reached(t, n, score) && t[0].children == []
    ensures n == 0
  {
    var p := Path(t, n);
    // The path ends at the childless root, and every node above `n` on it has children.
    assert t[p[|p| - 1]].children == [];
    assert |p| == 1;
  }

  /** The position of the first occurrence of `x`, as `list.index` finds it. */
  function FirstIndex<A(==)>(xs: seq<A>, x: A): (i: nat)
    requires x in xs
    ensures i < |xs| && xs[i] == x && x !in xs[..i]
  {
    if xs[0] == x then 0
    else
      var j := FirstIndex(xs[1..], x);
      assert xs[..j + 1] == [xs[0]] + xs[1..][..j];
      j + 1
  }

  /** `list.remove`: drop the first occurrence of `x`, keeping the rest in order. */
  function RemoveFirst<A(==)>(xs: seq<A>, x: A): (r: seq<A>)
    requires x in xs
    ensures |r| == |xs| - 1
    ensures multiset(r) + multiset{x} == multiset(xs)
    ensures exists i :: 0 <= i < |xs| && xs[i] == x && x !in xs[..i] && r == xs[..i] + xs[i + 1..]
  {
    var i := FirstIndex(xs, x);
    assert xs == xs[..i] + [x] + xs[i + 1..];
    xs[..i] + xs[i + 1..]
  }

  /**
   * `t'` is `t` with one node appended as a fresh child of `n`: `n` lists it
   * last, keeps its statistics and loses one untried action, and no other
   * node changes.
   */
  ghost predicate GrewAt<S, A>(t: Tree<S, A>, t': Tree<S, A>, n: nat)
    requires n < |t|
  {
    && |t'| == |t| + 1
    && Fresh(t'[|t|]) && t'[|t|].parent == Some(n)
    && t'[n].children == t[n].children + [|t|]
    && t'[n].state == t[n].state && t'[n].parent == t[n].parent
    && t'[n].visits == t[n].visits && t'[n].value == t[n].value
    && |t'[n].untried| + 1 == |t[n].untried|
    && forall j :: 0 <= j < |t| && j != n ==> t'[j] == t[j]
  }

  /** Appending a fresh child keeps every node but the root linked to an earlier parent that lists it. */
  lemma GrowParents<S, A>(t: Tree<S, A>, t': Tree<S, A>, n: nat)
    requires WellFormed(t) && n < |t| && GrewAt(t, t', n)
    ensures forall i :: 0 < i < |t'| ==>
              t'[i].parent.Some? && t'[i].parent.value < i && i in t'[t'[i].parent.value].children
  {
    forall i | 0 < i < |t'|
      ensures t'[i].parent.Some? && t'[i].parent.value < i && i in t'[t'[i].parent.value].children
    {
      if i < |t| {
        var q := t[i].parent.value;
        assert t'[i].parent == t[i].parent;
        assert i in t[q].children;
        if q == n {
          assert t'[q].children == t[q].children + [|t|];
        }
      } else {
        assert t'[n].children[|t[n].children|] == i;
      }
    }
  }

  /** Appending a fresh child keeps every listed child a later node that points back. */
  lemma GrowChildren<S, A>(t: Tree<S, A>, t': Tree<S, A>, n: nat)
    requires WellFormed(t) && n < |t| && GrewAt(t, t', n)
    ensures forall i, k :: 0 <= i < |t'| && 0 <= k < |t'[i].children| ==>
              i < t'[i].children[k] < |t'| && t'[t'[i].children[k]].parent == Some(i)
  {
    forall i, k | 0 <= i < |t'| && 0 <= k < |t'[i].children|
      ensures i < t'[i].children[k] < |t'| && t'[t'[i].children[k]].parent == Some(i)
    {
      if i == n && k == |t[n].children| {
        assert t'[i].children[k] == |t|;
      } else {
        assert i < |t|;
        assert t'[i].children[k] == t[i].children[k];
        var c := t[i].children[k];
        if c == n {
          assert t'[c].parent == t[c].parent;
        } else {
          assert t'[c] == t[c];
        }
      }
    }
  }

  /** Appending a fresh child keeps every child list increasing. */
  lemma GrowSorted<S, A>(t: Tree<S, A>, t': Tree<S, A>, n: nat)
    requires WellFormed(t) && n < |t| && GrewAt(t, t', n)
    ensures forall i, k, m :: 0 <= i < |t'| && 0 <= k < m < |t'[i].children| ==>
              t'[i].children[k] < t'[i].children[m]
  {
    forall i, k, m | 0 <= i < |t'| && 0 <= k < m < |t'[i].children|
      ensures t'[i].children[k] < t'[i].children[m]
    {
      assert i < |t|;
      if i == n && m == |t[n].children| {
        assert t'[i].children[k] == t[i].children[k];
      } else {
        assert t'[i].children[k] == t[i].children[k];
        assert t'[i].children[m] == t[i].children[m];
      }
    }
  }

  /** Appending a fresh child keeps the arena a tree. */
  lemma GrowWellFormed<S, A>(t: Tree<S, A>, t': Tree<S, A>, n: nat)
    requires WellFormed(t) && n < |t| && GrewAt(t, t', n)
    ensures WellFormed(t')
  {
    GrowParents(t, t', n);
    GrowChildren(t, t', n);
    GrowSorted(t, t', n);
  }

  /**
   * The expansion step of `_select` at `n`: with untried actions left, remove
   * the picked one, create the node for the state it leads to as the last
   * child of `n`, and return it; otherwise return `n` and leave the tree alone.
   */
  function Expand<S, A(==)>(t: Tree<S, A>, n: nat, pick: nat, step: (S, A) -> S, actionsOf: S -> seq<A>)
    : (r: (Tree<S, A>, nat))
    requires WellFormed(t) && n < |t|
    ensures WellFormed(r.0) && r.1 < |r.0|
    ensures t[n].untried == [] ==> r == (t, n)
    ensures t[n].untried != [] ==> GrewAt(t, r.0, n) && r.1 == |t|
    ensures t[n].untried != [] ==>
              var a := t[n].untried[pick % |t[n].untried|];
              && multiset(r.0[n].untried) + multiset{a} == multiset(t[n].untried)
              && r.0[|t|].state == step(t[n].state, a)
              && r.0[|t|].untried == actionsOf(r.0[|t|].state)
  {
    var node := t[n];
    if node.untried == [] then (t, n)
    else
      var a := node.untried[pick % |node.untried|];
      var s := step(node.state, a);
      var grown := t[n := node.(untried := RemoveFirst(node.untried, a), children := node.children + [|t|])]
                   + [NewNode(s, Some(n), actionsOf(s))];
      GrowWellFormed(t, grown, n);
      (grown, |t|)
  }

  /**
   * `_select`: descend from the root, then expand one child where the
   * descent stopped. Either the tree is unchanged and the returned node has
   * neither untried actions nor children, or exactly one node was added, as
   * a child of the node the descent reached, and it is the one returned.
   */
  method Select<S, A(==)>(t: Tree<S, A>, score: (Node<S, A>, Node<S, A>) -> real, pick: nat,
                          step: (S, A) -> S, actionsOf: S -> seq<A>)
    returns (t': Tree<S, A>, leaf: nat)
    requires WellFormed(t)
    ensures WellFormed(t') && leaf < |t'|
    ensures |t'| == |t| || |t'| == |t| + 1
    ensures |t'| == |t| ==>
              t' == t && Reached(t, leaf, score) && t[leaf].untried == [] && t[leaf].children == []
    ensures |t'| == |t| + 1 ==>
              && leaf == |t| && t'[leaf].parent.Some? && t'[leaf].parent.value < |t|
              && Reached(t, t'[leaf].parent.value, score) && t[t'[leaf].parent.value].untried != []
              && GrewAt(t, t', t'[leaf].parent.value)
  {
    var n := Descend(t, score);
    var r := Expand(t, n, pick, step, actionsOf);
    t', leaf := r.0, r.1;
  }

  /** A node after one more backpropagation pass carrying `reward`. */
  function Visited<S, A>(n: Node<S, A>, reward: real): Node<S, A>
  {
    n.(visits := n.visits + 1, value := n.value + reward)
  }

  /** `t'` is `t` with exactly the nodes in `done` passed through once more, carrying `reward`. */
  ghost predicate VisitedAlong<S, A>(t: Tree<S, A>, t': Tree<S, A>, done: seq<nat>, reward: real)
  {
    && |t'| == |t|
    && forall j :: 0 <= j < |t| ==> t'[j] == if j in done then Visited(t[j], reward) else t[j]
  }

  /** Passing through one more node that was not yet passed through. */
  lemma VisitedAlongStep<S, A>(t: Tree<S, A>, t': Tree<S, A>, done: seq<nat>, i: nat, reward: real)
    requires VisitedAlong(t, t', done, reward) && i < |t| && i !in done
    ensures VisitedAlong(t, t'[i := Visited(t'[i], reward)], done + [i], reward)
  {
  }

  /**
   * `_backpropagate`: every node from `leaf` up to and including the root
   * gains one visit and `reward` in value; every other node is unchanged.
   */
  method Backpropagate<S, A>(t: Tree<S, A>, leaf: nat, reward: real) returns (t': Tree<S, A>)
    requires WellFormed(t) && leaf < |t|
    ensures |t'| == |t|
    ensures forall j :: 0 <= j < |t| ==>
              t'[j] == if j in Path(t, leaf) then Visited(t[j], reward) else t[j]
  {
    t' := t;
    var node: Option<nat> := Some(leaf);
    ghost var p := Path(t, leaf);
    ghost var d := 0;
    assert p[..0] == [];
    while node.Some?
      invariant 0 <= d <= |p|
      invariant node.Some? <==> d < |p|
      invariant node.Some? ==> node.value == p[d]
      invariant VisitedAlong(t, t', p[..d], reward)
      decreases |p| - d
    {
      var i := node.value;
      PathStep(t, leaf, d);
      VisitedAlongStep(t, t', p[..d], i, reward);
      t' := t'[i := Visited(t'[i], reward)];
      d := d + 1;
      node := t'[i].parent;
    }
    assert p[..d] == p;
  }

  /** Growing by a fresh child keeps the statistics of node `i`. */
  lemma GrowNodeStats<S, A>(t: Tree<S, A>, t': Tree<S, A>, n: nat, i: nat)
    requires WellFormed(t) && n < |t| && GrewAt(t, t', n) && WellFormed(t') && i < |t'|
    requires i < |t| ==> NodeStatsOk(t, i)
    ensures NodeStatsOk(t', i)
  {
    if i < |t| {
      var cs := t[i].children;
      forall k | 0 <= k < |cs|
        ensures t'[cs[k]].visits == t[cs[k]].visits
      {
        if cs[k] != n {
          assert t'[cs[k]] == t[cs[k]];
        }
      }
      ChildVisitsBump(t, t', cs, []);
      if i == n {
        ChildVisitsAppend(t', cs, |t|);
      } else {
        assert t'[i] == t[i];
      }
    }
  }

  /** Growing by a fresh child keeps the tree valid. */
  lemma GrowValid<S, A>(t: Tree<S, A>, t': Tree<S, A>, n: nat)
    requires Valid(t) && n < |t| && GrewAt(t, t', n)
    ensures Valid(t')
  {
    GrowWellFormed(t, t', n);
    forall i | 0 <= i < |t'|
      ensures NodeStatsOk(t', i)
    {
      GrowNodeStats(t, t', n, i);
    }
  }

  /**
   * A backpropagation pass keeps the statistics of node `i`: on the path it
   * gains one visit and at most one of its children is on the path; off the
   * path none of its children is.
   */
  lemma BackpropagateNodeStats<S, A>(t: Tree<S, A>, t': Tree<S, A>, leaf: nat, reward: real, i: nat)
    requires WellFormed(t) && leaf < |t| && |t'| == |t| && i < |t|
    requires NodeStatsOk(t, i)
    requires forall j :: 0 <= j < |t| ==>
               t'[j] == if j in Path(t, leaf) then Visited(t[j], reward) else t[j]
    ensures t'[i].children == t[i].children
    ensures NodeStatsOk(t', i)
  {
    var p := Path(t, leaf);
    var cs := t[i].children;
    assert t'[i].children == cs;
    assert forall k :: 0 <= k < |cs| ==>
             t'[cs[k]].visits == t[cs[k]].visits + (if cs[k] in p then 1 else 0);
    PathChildUnique(t, leaf, i);
    ChildVisitsBump(t, t', cs, p);
    if i !in p {
      PathChildOff(t, leaf, i);
    }
  }

  /** A backpropagation pass keeps the tree valid. */
  lemma BackpropagateValid<S, A>(t: Tree<S, A>, t': Tree<S, A>, leaf: nat, reward: real)
    requires Valid(t) && leaf < |t| && |t'| == |t|
    requires forall j :: 0 <= j < |t| ==>
               t'[j] == if j in Path(t, leaf) then Visited(t[j], reward) else t[j]
    ensures Valid(t')
  {
    SameShapeWellFormed(t, t');
    forall i | 0 <= i < |t'|
      ensures NodeStatsOk(t', i)
    {
      BackpropagateNodeStats(t, t', leaf, reward, i);
    }
  }

  /**
   * One iteration of the driver loop: select (and expand), then
   * backpropagate the rollout's `reward` from the selected node. The tree
   * stays valid, the root gains exactly one visit, and a root with anything
   * to explore ends up with a child.
   */
  method Iterate<S, A(==)>(t: Tree<S, A>, score: (Node<S, A>, Node<S, A>) -> real, pick: nat,
                           step: (S, A) -> S, actionsOf: S -> seq<A>, reward: real)
    returns (t': Tree<S, A>)
    requires Valid(t)
    ensures Valid(t')
    ensures |t'| == |t| || |t'| == |t| + 1
    ensures t'[0].visits == t[0].visits + 1
    ensures Settled(t) ==> Settled(t')
    ensures forall j :: 0 <= j < |t| ==> t'[j].state == t[j].state
    ensures t[0].untried != [] || t[0].children != [] ==> t'[0].children != []
    ensures t[0].untried == [] && t[0].children == [] ==> t'[0].untried == [] && t'[0].children == []
  {
    var grown, leaf := Select(t, score, pick, step, actionsOf);
    t' := Backpropagate(grown, leaf, reward);
    IterateValid(t, grown, leaf, score, reward, t');
    IterateCounts(t, grown, leaf, score, reward, t');
    IterateRootChildren(t, grown, leaf, score, reward, t');
  }

  /** What `Select` promises about a grown tree `g` and its selected node `leaf`. */
  ghost predicate Selected<S, A>(t: Tree<S, A>, g: Tree<S, A>, leaf: nat, score: (Node<S, A>, Node<S, A>) -> real)
    requires WellFormed(t)
  {
    && WellFormed(g) && leaf < |g|
    && (|g| == |t| || |g| == |t| + 1)
    && (|g| == |t| ==>
          g == t && Reached(t, leaf, score) && t[leaf].untried == [] && t[leaf].children == [])
    && (|g| == |t| + 1 ==>
          && leaf == |t| && g[leaf].parent.Some? && g[leaf].parent.value < |t|
          && Reached(t, g[leaf].parent.value, score) && t[g[leaf].parent.value].untried != []
          && GrewAt(t, g, g[leaf].parent.value))
  }

  /** What `Backpropagate` promises about `t'`. */
  ghost predicate Backpropagated<S, A>(g: Tree<S, A>, leaf: nat, reward: real, t': Tree<S, A>)
    requires WellFormed(g) && leaf < |g|
  {
    && |t'| == |g|
    && forall j :: 0 <= j < |g| ==>
         t'[j] == if j in Path(g, leaf) then Visited(g[j], reward) else g[j]
  }

  /** One iteration keeps the tree valid. */
  lemma IterateValid<S, A>(t: Tree<S, A>, g: Tree<S, A>, leaf: nat, score: (Node<S, A>, Node<S, A>) -> real,
                           reward: real, t': Tree<S, A>)
    requires Valid(t)
    requires Selected(t, g, leaf, score)
    requires Backpropagated(g, leaf, reward, t')
    ensures Valid(t')
  {
    if |g| == |t| + 1 {
      GrowValid(t, g, g[leaf].parent.value);
    }
    BackpropagateValid(g, t', leaf, reward);
  }

  /** One iteration adds one root visit, keeps states and keeps every non-root node visited. */
  lemma IterateCounts<S, A>(t: Tree<S, A>, g: Tree<S, A>, leaf: nat, score: (Node<S, A>, Node<S, A>) -> real,
                            reward: real, t': Tree<S, A>)
    requires WellFormed(t)
    requires Selected(t, g, leaf, score)
    requires Backpropagated(g, leaf, reward, t')
    ensures |t'| == |t| || |t'| == |t| + 1
    ensures t'[0].visits == t[0].visits + 1
    ensures Settled(t) ==> Settled(t')
    ensures forall j :: 0 <= j < |t| ==> t'[j].state == t[j].state
  {
    if |g| == |t| + 1 {
      GrowKeeps(t, g, g[leaf].parent.value);
    }
    BackpropagateKeeps(g, t', leaf, reward);
    if Settled(t) {
      forall i | 0 < i < |t'|
        ensures t'[i].visits > 0
      {
        if i < |t| {
          assert t'[i].visits >= g[i].visits == t[i].visits;
        } else {
          assert i == leaf;
        }
      }
    }
  }

  /**
   * After one iteration a root with anything to explore has a child, and a
   * root with nothing to explore still has neither untried actions nor children.
   */
  lemma IterateRootChildren<S, A>(t: Tree<S, A>, g: Tree<S, A>, leaf: nat, score: (Node<S, A>, Node<S, A>) -> real,
                                  reward: real, t': Tree<S, A>)
    requires WellFormed(t)
    requires Selected(t, g, leaf, score)
    requires Backpropagated(g, leaf, reward, t')
    ensures t[0].untried != [] || t[0].children != [] ==> t'[0].children != []
    ensures t[0].untried == [] && t[0].children == [] ==> t'[0].untried == [] && t'[0].children == []
  {
    if |g| == |t| + 1 {
      GrowKeeps(t, g, g[leaf].parent.value);
    }
    BackpropagateKeeps(g, t', leaf, reward);
    if t[0].children == [] {
      if |g| == |t| {
        ReachedChildlessRoot(t, leaf, score);
      } else {
        ReachedChildlessRoot(t, g[leaf].parent.value, score);
      }
    }
  }

  /** Growing changes no earlier node's state or visits and takes no child away. */
  lemma GrowKeeps<S, A>(t: Tree<S, A>, t': Tree<S, A>, n: nat)
    requires n < |t| && GrewAt(t, t', n)
    ensures forall j :: 0 <= j < |t| ==>
              t'[j].state == t[j].state && t'[j].visits == t[j].visits && |t'[j].children| >= |t[j].children|
  {
  }

  /**
   * A backpropagation pass keeps every node's state and children, takes no
   * visit away, and adds one to the root and to the leaf.
   */
  lemma BackpropagateKeeps<S, A>(t: Tree<S, A>, t': Tree<S, A>, leaf: nat, reward: real)
    requires WellFormed(t) && leaf < |t| && |t'| == |t|
    requires forall j :: 0 <= j < |t| ==>
               t'[j] == if j in Path(t, leaf) then Visited(t[j], reward) else t[j]
    ensures t'[0].visits == t[0].visits + 1 && t'[leaf].visits == t[leaf].visits + 1
    ensures forall j :: 0 <= j < |t| ==>
              t'[j].state == t[j].state && t'[j].children == t[j].children && t'[j].visits >= t[j].visits
    ensures forall j :: 0 <= j < |t| ==> t'[j].untried == t[j].untried
  {
    var p := Path(t, leaf);
    assert 0 in p by {
      assert p[|p| - 1] == 0;
    }
    assert leaf in p by {
      assert p[0] == leaf;
    }
    forall j | 0 <= j < |t|
      ensures t'[j].state == t[j].state && t'[j].children == t[j].children && t'[j].visits >= t[j].visits
      ensures t'[j].untried == t[j].untried
    {
      if j in p {
        assert t'[j] == Visited(t[j], reward);
      } else {
        assert t'[j] == t[j];
      }
    }
  }

  /**
   * `select_action`'s loop, one iteration per element of `draws` (the
   * untried-action draw and the rollout's reward), from a fresh root:
   * afterwards the root's visits count the iterations run.
   */
  method Run<S, A(==)>(rootState: S, actionsOf: S -> seq<A>, score: (Node<S, A>, Node<S, A>) -> real,
                       step: (S, A) -> S, draws: seq<(nat, real)>)
    returns (t: Tree<S, A>)
    ensures Valid(t) && Settled(t)
    ensures t[0].state == rootState
    ensures t[0].visits == |draws|
    ensures |t| <= |draws| + 1
    ensures |draws| > 0 && actionsOf(rootState) != [] ==> t[0].children != []
    ensures actionsOf(rootState) == [] ==> t[0].children == []
  {
    t := Singleton(rootState, actionsOf(rootState));
    SingletonValid(rootState, actionsOf(rootState));
    var i := 0;
    while i < |draws|
      invariant 0 <= i <= |draws|
      invariant Valid(t) && Settled(t)
      invariant t[0].state == rootState && t[0].visits == i && |t| <= i + 1
      invariant i == 0 ==> t[0].untried == actionsOf(rootState)
      invariant i > 0 && actionsOf(rootState) != [] ==> t[0].children != []
      invariant actionsOf(rootState) == [] ==> t[0].untried == [] && t[0].children == []
    {
      t := Iterate(t, score, draws[i].0, step, actionsOf, draws[i].1);
      i := i + 1;
    }
  }

  /**
   * `select_action`: run the iterations, then answer with the state of the
   * root's most visited child, the earliest expanded among equals. Where the
   * root has no child the source's `max` raises, which is `None` here.
   */
  method SelectAction<S, A(==)>(rootState: S, actionsOf: S -> seq<A>, score: (Node<S, A>, Node<S, A>) -> real,
                                step: (S, A) -> S, draws: seq<(nat, real)>)
    returns (t: Tree<S, A>, choice: Option<S>)
    ensures Valid(t) && t[0].state == rootState && t[0].visits == |draws|
    ensures choice.None? <==> t[0].children == []
    ensures |draws| == 0 ==> choice.None?
    ensures actionsOf(rootState) == [] ==> choice.None?
    ensures |draws| > 0 && actionsOf(rootState) != [] ==> choice.Some?
    ensures choice.Some? ==>
              exists c :: 0 < c < |t| && c in t[0].children && t[c].state == choice.value
                && (forall k :: 0 <= k < |t[0].children| ==> t[t[0].children[k]].visits <= t[c].visits)
                && (forall k :: 0 <= k < |t[0].children| && t[0].children[k] < c ==>
                      t[t[0].children[k]].visits < t[c].visits)
  {
    t := Run(rootState, actionsOf, score, step, draws);
    match BestChild(t, 0)
    case None => choice := None;
    case Some(c) => choice := Some(t[c].state);
  }

  /**
   * The states a rollout passes through if it never stops: `s`, then the
   * result of each rollout action in turn.
   */
  function Trajectory<S, A>(s: S, rollout: seq<A>, step: (S, A) -> S): (tr: seq<S>)
    ensures |tr| == |rollout| + 1 && tr[0] == s
    ensures forall k :: 0 <= k < |rollout| ==> tr[k + 1] == step(tr[k], rollout[k])
  {
    if rollout == [] then [s] else [s] + Trajectory(step(s, rollout[0]), rollout[1..], step)
  }

  /**
   * `_simulate`: apply rollout actions from `s` until a terminal state and
   * return that state's reward: the reward of the first terminal state of
   * the trajectory. The source loops without bound; here the rollout
   * policy's choices are a finite sequence, and `None` means it ran out
   * before a terminal state.
   */
  function Simulate<S, A>(s: S, rollout: seq<A>, terminal: S -> bool, step: (S, A) -> S,
                          rewardOf: S -> real): (r: Option<real>)
    ensures r.None? ==>
              forall k :: 0 <= k < |rollout| + 1 ==> !terminal(Trajectory(s, rollout, step)[k])
    ensures r.Some? ==>
              exists k :: 0 <= k < |rollout| + 1 && terminal(Trajectory(s, rollout, step)[k])
                && r.value == rewardOf(Trajectory(s, rollout, step)[k])
                && forall j :: 0 <= j < k ==> !terminal(Trajectory(s, rollout, step)[j])
  {
    var tr := Trajectory(s, rollout, step);
    if terminal(s) then
      assert tr[0] == s;
      Some(rewardOf(s))
    else if rollout == [] then None
    else
      var tail := Trajectory(step(s, rollout[0]), rollout[1..], step);
      assert forall k :: 0 <= k < |tail| ==> tr[k + 1] == tail[k];
      Simulate(step(s, rollout[0]), rollout[1..], terminal, step, rewardOf)
  }
}

=== FILE: results.dfy ===
/** Failure-carrying wrappers shared by the environments and the search tree. */
module Results {

  /** A value that may be absent: Python's `None` next to a real value. */
  datatype Option<T> = None | Some(value: T)

  /** The outcome of an operation that may raise: `Err` stands for the exception. */
  datatype Result<T, E> = Ok(value: T) | Err(error: E)
}

=== FILE: search_tree.dfy ===
/**
 * The search tree of `Montecarlotree.py` as an arena: node `i` of a `Tree`
 * is the i-th node created during the search, `parent` and `children` hold
 * arena indices, and node 0 is the root. Children are appended, so every
 * child has a larger index than its parent and a node's children are listed
 * in increasing index order, which is also their expansion order.
 */
module SearchTree {
  import opened Results

  /**
   * `Node`: the state it stands for, its parent, its children, the number
   * of backpropagation passes through it, the sum of the rewards those
   * passes carried, and the actions not yet expanded from it.
   */
  datatype Node<S, A> = Node(
    state: S,
    parent: Option<nat>,
    children: seq<nat>,
    visits: nat,
    value: real,
    untried: seq<A>)

  type Tree<S, A> = seq<Node<S, A>>

  /** A node as `Node.__init__` leaves it: never visited, no value, no children. */
  predicate Fresh<S, A>(n: Node<S, A>)
  {
    n.visits == 0 && n.value == 0.0 && n.children == []
  }

  /**
   * `Node.__init__`. The untried actions are passed in: the source asks the
   * node for them through a method it does not define.
   */
  function NewNode<S, A>(state: S, parent: Option<nat>, untried: seq<A>): (n: Node<S, A>)
    ensures Fresh(n)
    ensures n.state == state && n.parent == parent && n.untried == untried
  {
    Node(state, parent, [], 0, 0.0, untried)
  }

  /**
   * The arena is a tree rooted at 0: every other node has an earlier parent
   * that lists it as a child, and every listed child is a later node whose
   * parent is the lister, listed once, in increasing order.
   */
  predicate WellFormed<S, A>(t: Tree<S, A>)
  {
    && |t| > 0
    && t[0].parent == None
    && (forall i :: 0 < i < |t| ==>
          t[i].parent.Some? && t[i].parent.value < i && i in t[t[i].parent.value].children)
    && (forall i, k :: 0 <= i < |t| && 0 <= k < |t[i].children| ==>
          i < t[i].children[k] < |t| && t[t[i].children[k]].parent == Some(i))
    && (forall i, k, m :: 0 <= i < |t| && 0 <= k < m < |t[i].children| ==>
          t[i].children[k] < t[i].children[m])
  }

  /** The tree `select_action` starts from: a root for `state` and nothing else. */
  function Singleton<S, A>(state: S, untried: seq<A>): (t: Tree<S, A>)
    ensures WellFormed(t) && |t| == 1
    ensures t[0] == NewNode(state, None, untried)
  {
    [NewNode(state, None, untried)]
  }

  /**
   * The nodes `_backpropagate` walks from `i`: `i`, its parent, its
   * grandparent, ... up to and including the root.
   */
  function Path<S, A>(t: Tree<S, A>, i: nat): (p: seq<nat>)
    requires WellFormed(t) && i < |t|
    ensures |p| > 0 && p[0] == i && p[|p| - 1] == 0
    ensures forall k :: 0 <= k < |p| ==> p[k] < |t|
    ensures forall k :: 0 <= k < |p| - 1 ==> t[p[k]].parent == Some(p[k + 1])
    ensures forall a, b :: 0 <= a < b < |p| ==> p[b] < p[a]
    decreases i
  {
    if i == 0 then [0] else [i] + Path(t, t[i].parent.value)
  }

  /**
   * Walking a path: the d-th node has not been met before it, and it has a
   * parent exactly when the path goes on, to that parent.
   */
  lemma PathStep<S, A>(t: Tree<S, A>, leaf: nat, d: nat)
    requires WellFormed(t) && leaf < |t| && d < |Path(t, leaf)|
    ensures Path(t, leaf)[d] !in Path(t, leaf)[..d]
    ensures Path(t, leaf)[..d + 1] == Path(t, leaf)[..d] + [Path(t, leaf)[d]]
    ensures t[Path(t, leaf)[d]].parent.Some? <==> d + 1 < |Path(t, leaf)|
    ensures d + 1 < |Path(t, leaf)| ==> t[Path(t, leaf)[d]].parent == Some(Path(t, leaf)[d + 1])
  {
    var p := Path(t, leaf);
    assert forall k :: 0 <= k < d ==> p[d] < p[k];
  }

  /** A node other than the root lies on a path only together with its parent. */
  lemma PathClosed<S, A>(t: Tree<S, A>, leaf: nat, c: nat)
    requires WellFormed(t) && leaf < |t| && c < |t|
    requires c in Path(t, leaf) && c != 0
    ensures t[c].parent.Some? && t[c].parent.value in Path(t, leaf)
  {
    var p := Path(t, leaf);
    var a :| 0 <= a < |p| && p[a] == c;
    assert a < |p| - 1;
    assert t[c].parent == Some(p[a + 1]);
  }

  /** Two nodes on a path with the same parent are the same node. */
  lemma PathParentUnique<S, A>(t: Tree<S, A>, leaf: nat, c1: nat, c2: nat)
    requires WellFormed(t) && leaf < |t| && c1 < |t| && c2 < |t|
    requires c1 in Path(t, leaf) && c2 in Path(t, leaf)
    requires t[c1].parent.Some? && t[c1].parent == t[c2].parent
    ensures c1 == c2
  {
    var p := Path(t, leaf);
    var a :| 0 <= a < |p| && p[a] == c1;
    var b :| 0 <= b < |p| && p[b] == c2;
    assert a < |p| - 1 && b < |p| - 1;
    assert p[a + 1] == p[b + 1];
  }

  /** At most one child of a node lies on a path. */
  lemma PathChildUnique<S, A>(t: Tree<S, A>, leaf: nat, i: nat)
    requires WellFormed(t) && leaf < |t| && i < |t|
    ensures forall k, m ::
              (0 <= k < |t[i].children| && 0 <= m < |t[i].children| &&
               t[i].children[k] in Path(t, leaf) && t[i].children[m] in Path(t, leaf)) ==> k == m
  {
    var cs := t[i].children;
    forall k, m | 0 <= k < |cs| && 0 <= m < |cs| && cs[k] in Path(t, leaf) && cs[m] in Path(t, leaf)
      ensures k == m
    {
      PathParentUnique(t, leaf, cs[k], cs[m]);
    }
  }

  /** A node off a path has no child on it. */
  lemma PathChildOff<S, A>(t: Tree<S, A>, leaf: nat, i: nat)
    requires WellFormed(t) && leaf < |t| && i < |t| && i !in Path(t, leaf)
    ensures forall k :: 0 <= k < |t[i].children| ==> t[i].children[k] !in Path(t, leaf)
  {
    var cs := t[i].children;
    forall k | 0 <= k < |cs|
      ensures cs[k] !in Path(t, leaf)
    {
      if cs[k] in Path(t, leaf) {
        PathClosed(t, leaf, cs[k]);
      }
    }
  }

  /** The visits of the listed children, added up. */
  function ChildVisits<S, A>(t: Tree<S, A>, cs: seq<nat>): nat
    requires forall k :: 0 <= k < |cs| ==> cs[k] < |t|
  {
    if cs == [] then 0 else t[cs[0]].visits + ChildVisits(t, cs[1..])
  }

  /** Appending a child adds its visits to the sum. */
  lemma {:induction false} ChildVisitsAppend<S, A>(t: Tree<S, A>, cs: seq<nat>, c: nat)
    requires forall k :: 0 <= k < |cs| ==> cs[k] < |t|
    requires c < |t|
    ensures ChildVisits(t, cs + [c]) == ChildVisits(t, cs) + t[c].visits
  {
    if cs != [] {
      assert (cs + [c])[1..] == cs[1..] + [c];
      ChildVisitsAppend(t, cs[1..], c);
    }
  }

  /**
   * When the listed children keep their visits except that those in `bumped`
   * gain one, and at most one of them is in `bumped`, the sum grows by at
   * most one, and not at all when none is.
   */
  lemma {:induction false} ChildVisitsBump<S, A>(t: Tree<S, A>, t': Tree<S, A>, cs: seq<nat>, bumped: seq<nat>)
    requires |t'| >= |t|
    requires forall k :: 0 <= k < |cs| ==> cs[k] < |t|
    requires forall k :: 0 <= k < |cs| ==>
               t'[cs[k]].visits == t[cs[k]].visits + (if cs[k] in bumped then 1 else 0)
    requires forall k, m :: 0 <= k < |cs| && 0 <= m < |cs| && cs[k] in bumped && cs[m] in bumped ==> k == m
    ensures ChildVisits(t', cs) <= ChildVisits(t, cs) + 1
    ensures (forall k :: 0 <= k < |cs| ==> cs[k] !in bumped) ==> ChildVisits(t', cs) == ChildVisits(t, cs)
  {
    if cs != [] {
      ChildVisitsBump(t, t', cs[1..], bumped);
      if cs[0] in bumped {
        assert forall k :: 0 <= k < |cs[1..]| ==> cs[1..][k] !in bumped by {
          forall k | 0 <= k < |cs[1..]|
            ensures cs[1..][k] !in bumped
          {
            assert cs[1..][k] == cs[k + 1];
          }
        }
      }
    }
  }

  /**
   * The statistics every node keeps: its children were passed through at
   * most as often as it was, and a node never passed through has no value.
   */
  predicate StatsOk<S, A>(t: Tree<S, A>)
    requires WellFormed(t)
  {
    forall i :: 0 <= i < |t| ==> NodeStatsOk(t, i)
  }

  /** The statistics of node `i`. */
  predicate NodeStatsOk<S, A>(t: Tree<S, A>, i: nat)
    requires i < |t| && forall k :: 0 <= k < |t[i].children| ==> t[i].children[k] < |t|
  {
    ChildVisits(t, t[i].children) <= t[i].visits && (t[i].visits == 0 ==> t[i].value == 0.0)
  }

  predicate Valid<S, A>(t: Tree<S, A>)
  {
    WellFormed(t) && StatsOk(t)
  }

  /** Every node but the root has been passed through at least once. */
  predicate Settled<S, A>(t: Tree<S, A>)
  {
    forall i :: 0 < i < |t| ==> t[i].visits > 0
  }

  /** The fresh root tree is valid and settled. */
  lemma SingletonValid<S, A>(state: S, untried: seq<A>)
    ensures Valid(Singleton(state, untried)) && Settled(Singleton(state, untried))
  {
  }

  /**
   * `_ucb_select` computes `log(node.visits)` and divides by each child's
   * `visits`, with no guard. In a valid settled tree neither is ever zero
   * when the node has children.
   */
  lemma UcbDefined<S, A>(t: Tree<S, A>, i: nat)
    requires Valid(t) && Settled(t) && i < |t| && t[i].children != []
    ensures t[i].visits > 0
    ensures forall k :: 0 <= k < |t[i].children| ==> t[t[i].children[k]].visits > 0
  {
    var c := t[i].children[0];
    assert NodeStatsOk(t, i);
    assert ChildVisits(t, t[i].children) >= t[c].visits > 0;
  }

  /** Changing only visits and values keeps the arena a tree. */
  lemma SameShapeWellFormed<S, A>(t: Tree<S, A>, t': Tree<S, A>)
    requires WellFormed(t) && |t'| == |t|
    requires forall j :: 0 <= j < |t| ==> t'[j].parent == t[j].parent && t'[j].children == t[j].children
    ensures WellFormed(t')
  {
    forall i | 0 < i < |t'|
      ensures t'[i].parent.Some? && t'[i].parent.value < i && i in t'[t'[i].parent.value].children
    {
      assert t'[t[i].parent.value].children == t[t[i].parent.value].children;
    }
  }
}
